=== FILE: README.md ===
# ListActions: action mode for a Sencha Touch list

This project models the core of the `Ext.ux.plugin.ListActions` list plugin
(`ux/plugin/ListActions.js`) in Dafny and proves properties of that model.
The plugin puts a list into "action mode". In action mode the list shows a
toolbar of action buttons, and each button's label carries a count token such
as "Delete (0)". The list allows multi-selection, and every row shows a
selection indicator. A bound toggle button switches the mode.

The model has six modules:

- `Labels`: the token rewrite `text.replace(/\(\d+\+?\)/g, '(' + count + ')')`.
  It is a left-to-right scan that replaces every non-overlapping match.
  The module also holds the decimal text of a number.
- `Buttons`: one pass of `updateActionButtonsText` over the toolbar's buttons,
  as a function. The function carries the loop's `count` variable from button
  to button.
- `Rows`: the row hook `doUpdateListItem` on one rendered row.
- `Toggle`: the toggle button's two-label machine and the merge of its default
  labels.
- `Mode`: the plugin and its list as a state. Each operation is a function on
  that state, and the lemmas relate the operations.
- `Plugin`: the plugin and the list as classes. The classes hold arrays of
  buttons and rows that their methods update in place. Each method is proved
  to follow the matching `Mode` function.

Notes on how the model reads the code:

- JavaScript's `count` becomes a string in `updateActionButtonsText`. The
  first labelled button that sees a count above the maximum turns `count`
  into the string "<max>+". After that, `count > max` and `count < 1` compare
  a non-numeric string with a number, so both are false. The model's
  `CountValue` keeps this distinction.
- The option's documentation says a count above `maxButtonDisplayCount`
  shows "max-1" and a "+". The code writes the maximum itself ("(99+)" for 99).
  The model follows the code.
- The method's comment speaks of "a token" being replaced. The expression has
  the global flag, so every token in a label is replaced. The model follows
  the code.
- A negative `maxButtonDisplayCount` is exceeded by every count, including 0.
  The text "(-1+)" is not a token, and a labelled button then stays enabled at
  a count of 0. `Buttons.NegativeMaximumAtZero` states this. The lemmas about
  uniform labels assume a non-negative maximum.
- `doSetEnabled` schedules `doEnableActions` or `doDisableActions` with a
  timer. `Plugin.ListActions.DoSetEnabled` returns the scheduled call as a
  `Deferred` value, and `RunDeferred` runs it later.
- `isEnabled` reads the list's CSS class, not the `enabled` flag. Enabling
  adds the class at once. Only the deferred half of disabling removes it.
- A new plugin leaves the list in its default single mode with selection
  allowed, a state no completed mode change produces. The first enable and
  disable cycle therefore ends with selection refused, so it does not return
  to the start (`Mode.FirstCycleRefusesSelection`). A later cycle from a
  settled list whose label offers the switch does (`Mode.TapTwiceRestores`).
- The toggle button's label can fall out of step with the mode, and then a
  tap does not switch it. This happens to a plugin created in action mode,
  whose button is bound with the enable text
  (`Mode.EnabledOptionFirstTapStaysEnabled`). It happens on a repaint in
  action mode, which binds the button again (`Mode.RepaintInActionMode`).
  And it happens after a redundant `enableActions()` or `disableActions()`,
  whose deferred half swaps the label although the mode stays
  (`Mode.RedundantDisableSwapsLabel`).
- Enabling does not deselect. Records selected before the first enable stay
  selected, yet every button shows "(0)" and is disabled
  (`Mode.EnableWithSelectionShowsZero`). From a list with nothing selected the
  buttons show the selection count, and each select or deselect in action
  mode keeps showing it (`Mode.ModeChangeShowsCount`,
  `Mode.SelectionKeepsCountShown`).
- The `enabled` option can start the plugin in action mode. The toolbar
  still starts hidden, and the list has no class and stays in single mode,
  until the first mode change. Until then `isEnabled` answers false although
  the flag is on (`Mode.EnabledOptionNotShown`).

## Model

| member | source | states |
|---|---|---|
| Labels.TokenLen | ux/plugin/ListActions.js:350 | the match the expression finds at the start of a label is a token, `(` digits, an optional `+`, `)` |
| Labels.TokenLenComplete | ux/plugin/ListActions.js:350 | every token at the start of a label is found, with its full length |
| Labels.TokenPrefixUnique | ux/plugin/ListActions.js:350 | a label starts with at most one token, so the match at a position is unique |
| Labels.ReplaceNoToken | ux/plugin/ListActions.js:350 | a label with no token anywhere is left unchanged |
| Labels.ReplaceConcat | ux/plugin/ListActions.js:350 | the rewrite splits at any '(' position: no match reaches across it |
| Labels.EveryTokenReplaced | ux/plugin/ListActions.js:350 | every token of a label becomes the replacement, whatever text surrounds it |
| Labels.ReplaceTwice | ux/plugin/ListActions.js:350 | rewriting with a token and then with `r2` equals rewriting once with `r2` |
| Labels.Replace | ux/plugin/ListActions.js:350 | the rewrite is the /g scan; it empties a label only if the label was empty (with a non-empty replacement) |
| Labels.NatToDecimal | ux/plugin/ListActions.js:350 | the text of a count is non-empty, all digits, with a leading zero only for 0, and is "0" for 0 |
| Labels.DecimalRoundTrip | ux/plugin/ListActions.js:350 | reading back the text of a count gives the count |
| Labels.IntToDecimal | ux/plugin/ListActions.js:348 | the text of the maximum starts with '-' exactly when the maximum is negative |
| Buttons.CountToken | ux/plugin/ListActions.js:350 | the replacement is '(' + count + ')' |
| Buttons.CountTokenIsToken | ux/plugin/ListActions.js:347-350 | for a number, or a non-negative maximum, the replacement matches the expression again |
| Buttons.Exceeds | ux/plugin/ListActions.js:347 | `count > max` is false once `count` is text, and false for a number within the maximum |
| Buttons.BelowOne | ux/plugin/ListActions.js:353 | `count < 1` holds exactly for the number 0, never for the text "<max>+" |
| Buttons.UpdateButton | ux/plugin/ListActions.js:343-357 | one iteration keeps an empty label empty and a non-empty one non-empty, disables exactly when `count < 1` holds afterwards, and changes `count` only to "<max>+", only for a labelled button above the maximum, and never again once it is text |
| Buttons.UpdatedButtons | ux/plugin/ListActions.js:342-358 | the pass yields one button for each button of the toolbar |
| Buttons.PassStep | ux/plugin/ListActions.js:342-358 | the pass over the remaining buttons continues from the `count` the current button leaves |
| Buttons.UpdatedButtonsClosedForm | ux/plugin/ListActions.js:339-359 | with a non-negative maximum, each button is as if rewritten alone with the shown count, whatever its position |
| Buttons.DisabledIffNone | ux/plugin/ListActions.js:353-357 | a button is disabled exactly when the count is 0, labelled or not |
| Buttons.TokenlessLabelKept | ux/plugin/ListActions.js:344-350 | a label with no token, empty or not, keeps its text |
| Buttons.ShownToken | ux/plugin/ListActions.js:347-350 | the replacement is "(count)" up to the maximum and "(max+)" above it |
| Buttons.TokenShowsCount | ux/plugin/ListActions.js:347-350 | a token shows "(count)" up to the maximum and "(max+)" above it |
| Buttons.UpdateOverwrites | ux/plugin/ListActions.js:350 | a pass with `a` followed by a pass with `b` leaves the toolbar as one pass with `b` |
| Buttons.ResetToZero | ux/plugin/ListActions.js:283 | a pass with 0 makes every token "(0)" and disables every button |
| Buttons.DefaultCapToken | ux/plugin/ListActions.js:103-109 | above the default maximum of 99 the replacement is "(99+)" |
| Buttons.DefaultCapShowsNinetyNinePlus | ux/plugin/ListActions.js:347-357 | with the default maximum, every labelled button above 99 shows "(99+)" in each token and is enabled |
| Buttons.NegativeCapNotToken | ux/plugin/ListActions.js:348-350 | with a negative maximum the replacement "(<max>+)" does not match the expression |
| Buttons.NegativeMaximumAtZero | ux/plugin/ListActions.js:347-357 | with a negative maximum a labelled button at count 0 shows "(max+)", which is not a token, and stays enabled |
| Rows.Injected | ux/plugin/ListActions.js:231-253 | an indicator is added only in action mode and only to a row without one; it is selected exactly when the row has the selected class |
| Rows.InjectedIdempotent | ux/plugin/ListActions.js:233 | running the hook again never adds a second indicator |
| Toggle.Bound | ux/plugin/ListActions.js:365-399 | a bound button shows its enable text; the labels default to 'select' and 'cancel' |
| Toggle.Swapped | ux/plugin/ListActions.js:432-444 | a list event swaps the label: the enable text becomes the disable text, anything else the enable text |
| Toggle.SwapTwice | ux/plugin/ListActions.js:432-444 | two swaps restore the button, and each swap flips what the next tap asks for |
| Mode.NextMode | ux/plugin/ListActions.js:264 | a boolean argument sets the mode; any other argument toggles it |
| Mode.SetEnabled | ux/plugin/ListActions.js:261-291 | the immediate half sets the flag and the toolbar to the new mode, adds the class on enable, keeps the selection on enable and empties it on disable, and leaves the selection mode and the toggle button alone |
| Mode.Scheduled | ux/plugin/ListActions.js:265-280 | the scheduled half is the enabling one exactly in the new mode, and it is suppressed exactly when the suppress argument is the boolean true |
| Mode.RefreshedRows | ux/plugin/ListActions.js:287 | a refresh keeps every row and its selected class, and gives a row an indicator exactly when it had one or action mode is on |
| Mode.EnableActionsDone | ux/plugin/ListActions.js:303-312 | multi mode with selection allowed; the bound button's label swaps exactly when not suppressed; nothing else changes |
| Mode.DisableActionsDone | ux/plugin/ListActions.js:314-324 | the class is removed, single mode with selection refused; the label swaps exactly when not suppressed; nothing else changes |
| Mode.Run | ux/plugin/ListActions.js:274-280 | the deferred half sets multi or single mode, allows or refuses selection, removes the class on disable and keeps it on enable, and changes nothing but those and the label |
| Mode.RowUpdated | ux/plugin/ListActions.js:231-253 | the row hook on the list state changes only the row at `index`, which has an indicator exactly when it had one or action mode is on |
| Mode.ToggleBound | ux/plugin/ListActions.js:394-402 | without a found button nothing changes; with one only the toggle button changes, and a tap on it asks for action mode |
| Mode.ListEvent | ux/plugin/ListActions.js:428-444 | an event from the list changes only the bound button, which becomes its swap: the configured texts stay, the enable text becomes the disable text, anything else the enable text |
| Mode.Tapped | ux/plugin/ListActions.js:418-445 | without a bound button a tap changes nothing; with one it enables exactly when the label reads the enable text |
| Mode.ItemSelected | ux/plugin/ListActions.js:447-451 | only the buttons can change, and outside action mode nothing does |
| Mode.IsEnabled | ux/plugin/ListActions.js:326-329 | `isEnabled` is the class, which agrees with the flag in a settled state; a plugin created with the `enabled` option is the exception (Mode.EnabledOptionNotShown) |
| Mode.Initial | ux/plugin/ListActions.js:85-111 | a new plugin's state has the `enabled` option as its flag, the toolbar hidden and no class, and is not settled in either mode |
| Mode.EnabledOptionNotShown | ux/plugin/ListActions.js:92 | a plugin created with the `enabled` option set has its flag on while `isEnabled` answers false, and is not settled |
| Mode.ToggleTwice | ux/plugin/ListActions.js:264 | toggling twice restores the flag |
| Mode.SetEnabledResets | ux/plugin/ListActions.js:267-283 | a mode change resets every token to "(0)", disables every button, shows the toolbar exactly in action mode, and empties the selection when leaving it |
| Mode.CompletedChangeSettles | ux/plugin/ListActions.js:303-324 | once the deferred half has run, the list is in multi mode with selection allowed, or in single mode with selection refused and nothing selected |
| Mode.IsEnabledLagsDisable | ux/plugin/ListActions.js:326-329 | right after disabling, `isEnabled` still answers true; it answers false once the deferred half has run |
| Mode.SelectionShownInActionMode | ux/plugin/ListActions.js:447-451 | in action mode a select or deselect shows the selection count; outside it nothing changes |
| Mode.TapSwitchesMode | ux/plugin/ListActions.js:418-445 | from any state whose label offers the switch, the new plugin's default state included, a tap, once its deferred half has run, switches the mode, settles the list and leaves the label offering the way back |
| Mode.TapTwiceSettles | ux/plugin/ListActions.js:418-445 | two completed taps from a disabled list whose label offers the switch end in single mode with selection refused and nothing selected, with "(0)" labels and the indicators injected |
| Mode.TapTwiceRestores | ux/plugin/ListActions.js:418-445 | from a settled, disabled list whose label offers the switch, two completed taps restore the state, except for the "(0)" labels and the injected indicators |
| Mode.EnabledOptionFirstTapStaysEnabled | ux/plugin/ListActions.js:92 | a plugin created in action mode has a label that does not offer the switch, and its first tap leaves it in action mode with the label "cancel" |
| Mode.RepaintInActionMode | ux/plugin/ListActions.js:219-221 | binding the button again in action mode leaves a label that does not offer the switch |
| Mode.RedundantDisableSwapsLabel | ux/plugin/ListActions.js:314-324 | a redundant disable on a settled, disabled list swaps the label, and two taps from there end in action mode |
| Mode.FirstCycleRefusesSelection | ux/plugin/ListActions.js:306-318 | the new plugin's first enable and disable cycle ends with selection refused where it started allowed |
| Mode.ModeChangeShowsCount | ux/plugin/ListActions.js:269-283 | after a mode change that starts with nothing selected, or that leaves action mode, the buttons show the selection count |
| Mode.SelectionKeepsCountShown | ux/plugin/ListActions.js:447-451 | in action mode a select or deselect keeps the buttons showing the selection count |
| Mode.EnableWithSelectionShowsZero | ux/plugin/ListActions.js:269-283 | enabling with records selected keeps them selected but shows "(0)" and disables every button |
| Mode.RowHookInjectsOnce | ux/plugin/ListActions.js:231-253 | the row hook on a list state injects only in action mode, at most once per row |
| Plugin.ListActions.constructor | ux/plugin/ListActions.js:85-111 | a new plugin takes the `enabled` option (default false), starts with its toolbar hidden and no toggle button, and the maximum defaults to 99 |
| Plugin.ListActions.IsEnabled | ux/plugin/ListActions.js:326-329 | `isEnabled` on the plugin is `Mode.IsEnabled` of its state |
| Plugin.ListActions.UpdateButtonAt | ux/plugin/ListActions.js:343-357 | one iteration rewrites the button at `i` and hands on the new `count`; no other button changes |
| Plugin.ListActions.UpdateActionButtonsText | ux/plugin/ListActions.js:339-359 | the in-place loop leaves the toolbar as the `Buttons.UpdatedButtons` pass |
| Plugin.ListActions.DoUpdateListItem | ux/plugin/ListActions.js:231-253 | only the row at `index` changes, as `Rows.Injected` says |
| Plugin.ListActions.Refresh | ux/plugin/ListActions.js:287 | the refresh runs the row hook on every rendered row |
| Plugin.ListActions.DoSetEnabled | ux/plugin/ListActions.js:261-291 | the state becomes `Mode.SetEnabled`, the result is the new mode, and the scheduled half carries the suppress flag |
| Plugin.ListActions.DoEnableActions | ux/plugin/ListActions.js:303-312 | multi mode with selection allowed; the event fires exactly when not suppressed |
| Plugin.ListActions.DoDisableActions | ux/plugin/ListActions.js:314-324 | the class is removed and single mode with selection refused; the event fires exactly when not suppressed |
| Plugin.ListActions.RunDeferred | ux/plugin/ListActions.js:274-280 | the scheduled call runs the matching deferred half |
| Plugin.ListActions.ToggleActionButton | ux/plugin/ListActions.js:418-445 | without a bound button nothing changes; a tap changes the mode the label offers; a list event only swaps the label |
| Plugin.ListActions.OnItemSelect | ux/plugin/ListActions.js:447-451 | the toolbar shows the selection count in action mode and is untouched outside it |
| Plugin.ListActions.BindToggleButton | ux/plugin/ListActions.js:394-402 | a found button is bound with the merged labels; otherwise nothing changes |

## Left out

- Animations: the row slide (`Ext.Anim`, `doShowItemAnimation`, `doHideItemAnimation`) and the toolbar slide are rendering effects with no state to model.
- Timers: the delay before the deferred half runs is not modelled. `DoSetEnabled` returns the call and the caller runs it later. No lemma covers a second mode change that starts before the first one's deferred half has run.
- Listener registration and `fireEvent` wiring are not modelled. 'actionsenabled' and 'actionsdisabled' are modelled by their effect on the bound toggle button, the only listener the plugin registers. Other listeners are not part of this model.
- `deselectAll` is modelled as emptying the selection. The deselect events it fires reach `onItemSelect` after the flag is already false, so they change nothing.
- The rows' selected class belongs to the framework and is not kept in step with the selection: emptying the selection on disable leaves `Row.selectedCls` as it was. The plugin only reads that class, when it injects an indicator.
- `list.doRefresh` is modelled as the row hook applied to every rendered row. The framework's own re-rendering is not part of this model, including whatever it does to indicators when action mode ends.
- The scroll-to-top save and restore around the refresh (lines 285-288) does not affect the plugin's state.
- The vertical centring of the indicator (`getHeight() / 2`) is floating-point layout arithmetic.
- Selector resolution in `applyActionToggleButton` (lines 372-392) is a call into the widget tree. Whether a button was found is a parameter of `BindToggleButton`.
- A `button` configured without a `selector` is not modelled: such a button is returned unbound at line 405.
- The autoEvent listeners on toolbar buttons (lines 208-214) and the toolbar configuration merge (lines 182-206) are framework glue. The toolbar is its sequence of buttons, in order; a configuration that overrides `hidden` is not modelled.
- A null label is modelled as the empty label; `if (text)` treats both as false.
- `maxButtonDisplayCount` is modelled as an integer. Non-integer values are not modelled.
- Numbers are unbounded integers. JavaScript's exponent notation from 1e21 and the loss of exactness above 2^53 are not modelled; selection counts stay far below both.
- `app/app/view/Main.js` is a declarative application configuration and is not part of this model.
- Buttons.UpdatedButtonsClosedForm: requires a non-negative maximum, because a negative one leaves buttons enabled at 0 (see Buttons.NegativeMaximumAtZero).
- Buttons.DisabledIffNone: requires a non-negative maximum, for the same reason.
- Buttons.TokenlessLabelKept: requires a non-negative maximum, for the same reason.
- Buttons.TokenShowsCount: requires a non-negative maximum, for the same reason.
- Buttons.UpdateOverwrites: requires a non-negative maximum; "(-1+)" is not a token, so a second pass would not find it.
- Buttons.ResetToZero: requires a non-negative maximum, for the same reason.
- Mode.SetEnabledResets: requires a non-negative maximum, for the same reason.
- Mode.SelectionShownInActionMode: requires a non-negative maximum, for the same reason.
- Mode.TapTwiceRestores: requires a non-negative maximum, for the same reason, and a settled start. The new plugin's state is not settled, and from it the round trip fails (Mode.FirstCycleRefusesSelection). It also requires a label that offers the switch, which excludes the states listed for Mode.TapSwitchesMode.
- Mode.TapSwitchesMode: requires a label that offers the switch. This excludes a plugin created in action mode (Mode.EnabledOptionFirstTapStaysEnabled), a repaint in action mode (Mode.RepaintInActionMode) and the state after a redundant enable or disable (Mode.RedundantDisableSwapsLabel). From those states a tap does not switch the mode.
- Mode.TapTwiceSettles: requires a non-negative maximum, for the same reason, and a label that offers the switch, which excludes the states listed for Mode.TapSwitchesMode.
- Buttons.ShownToken: requires a non-negative maximum; with a negative one the replacement starts "(-", and the statement is written for the digits of a natural number.
- Mode.FirstCycleRefusesSelection: requires a non-negative maximum, for the same reason.
- Mode.SelectionKeepsCountShown: requires a non-negative maximum, for the same reason.
- Mode.EnableWithSelectionShowsZero: requires a non-negative maximum, for the same reason.

=== FILE: buttons.dfy ===
/** The action toolbar's buttons and what one pass of `updateActionButtonsText`
    makes of them. The pass walks the buttons in order and carries one variable,
    `count`, from button to button: it starts as the number passed in and, the
    first time a button with a label sees it above the maximum, becomes the
    text "<max>+". After that, `count > max` and `count < 1` compare a
    non-numeric string with a number, which is false in JavaScript. */
module Buttons {
  import opened Labels

  /** A toolbar button: its label and whether it is disabled. */
  datatype Button = Button(text: seq<char>, disabled: bool)

  /** The value of the pass's `count` variable. */
  datatype CountValue = Number(n: nat) | Capped(max: int)

  /** The default of the `maxButtonDisplayCount` option. */
  const DefaultMaxButtonDisplayCount: int := 99

  /** The text `count` turns into when concatenated into a string. */
  function CountText(c: CountValue): seq<char>
  {
    match c
    case Number(n) => NatToDecimal(n)
    case Capped(m) => IntToDecimal(m) + "+"
  }

  /** The replacement written over each token: "(" + count + ")". */
  function CountToken(c: CountValue): (t: seq<char>)
    ensures |t| >= 3 && t[0] == '(' && t[|t| - 1] == ')'
  {
    "(" + CountText(c) + ")"
  }

  /** With a numeric count, or a non-negative maximum, the replacement is itself a token. */
  lemma CountTokenIsToken(c: CountValue)
    requires c.Number? || c.max >= 0
    ensures IsToken(CountToken(c))
  {
    var t := CountToken(c);
    var d := CountText(c);
    if c.Number? {
      assert t[1..|t| - 1] == d;
    } else {
      var m := IntToDecimal(c.max);
      assert t[1..|t| - 2] == m;
      assert t[|t| - 2] == '+';
    }
  }

  /** `count > max` as JavaScript evaluates it: once `count` is text the
      comparison is with NaN and false. */
  predicate Exceeds(c: CountValue, max: int)
    ensures c.Capped? ==> !Exceeds(c, max)
    ensures c.Number? && c.n <= max ==> !Exceeds(c, max)
  {
    c.Number? && c.n > max
  }

  /** `count < 1` as JavaScript evaluates it: true exactly for the number 0,
      never for the text "<max>+". */
  predicate BelowOne(c: CountValue)
    ensures BelowOne(c) <==> c == Number(0)
  {
    c.Number? && c.n < 1
  }

  /** The loop body for one button: the new button and the new value of `count`. */
  function UpdateButton(b: Button, c: CountValue, max: int): (r: (Button, CountValue))
    ensures r.0.text == [] <==> b.text == []
    ensures r.0.disabled <==> BelowOne(r.1)
    ensures r.1 == c || (b.text != [] && Exceeds(c, max) && r.1 == Capped(max))
    ensures c.Capped? ==> r.1 == c
  {
    if b.text != [] then
      var c' := if Exceeds(c, max) then Capped(max) else c;
      (Button(Replace(b.text, CountToken(c')), BelowOne(c')), c')
    else
      (Button(b.text, BelowOne(c)), c)
  }

  /** The buttons after the whole pass, starting with `count` equal to `c`. */
  function UpdatedButtons(bs: seq<Button>, c: CountValue, max: int): (r: seq<Button>)
    ensures |r| == |bs|
  {
    if bs == [] then []
    else
      var (b', c') := UpdateButton(bs[0], c, max);
      [b'] + UpdatedButtons(bs[1..], c', max)
  }

  /** One more button of the pass: if `done` is what the pass has written over
      the first `i` buttons, with `count` now `c`, then the button it writes at
      `i` extends `done`, and the rest of the pass starts from the `count` that
      button leaves behind. */
  lemma PassStep(bs: seq<Button>, start: CountValue, done: seq<Button>, i: nat, c: CountValue, max: int,
                 b: Button, c': CountValue)
    requires i < |bs| && (b, c') == UpdateButton(bs[i], c, max)
    requires UpdatedButtons(bs, start, max) == done + UpdatedButtons(bs[i..], c, max)
    ensures UpdatedButtons(bs, start, max) == (done + [b]) + UpdatedButtons(bs[i + 1..], c', max)
  {
    assert bs[i..][0] == bs[i] && bs[i..][1..] == bs[i + 1..];
  }

  /** What the pass displays for `count` items: the count, or "<max>+" above the maximum. */
  function Shown(count: nat, max: int): CountValue
  {
    if count > max then Capped(max) else Number(count)
  }

  /** A button as the pass leaves it, described without the loop's running state:
      an empty label stays empty, every token of a label becomes the shown count,
      and the button is disabled exactly when the count is below one. */
  function Expected(b: Button, count: nat, max: int): Button
  {
    Button(if b.text == [] then [] else Replace(b.text, CountToken(Shown(count, max))), count < 1)
  }

  lemma {:induction false} UpdatedFrom(bs: seq<Button>, c: CountValue, count: nat, max: int)
    requires max >= 0
    requires c == Number(count) || c == Shown(count, max)
    ensures forall j :: 0 <= j < |bs| ==> UpdatedButtons(bs, c, max)[j] == Expected(bs[j], count, max)
    decreases |bs|
  {
    if bs != [] {
      var (b', c') := UpdateButton(bs[0], c, max);
      assert b' == Expected(bs[0], count, max);
      assert c' == Number(count) || c' == Shown(count, max);
      UpdatedFrom(bs[1..], c', count, max);
      var r := UpdatedButtons(bs, c, max);
      assert r == [b'] + UpdatedButtons(bs[1..], c', max);
      forall j | 1 <= j < |bs| ensures r[j] == Expected(bs[j], count, max) {
        assert r[j] == UpdatedButtons(bs[1..], c', max)[j - 1];
        assert bs[j] == bs[1..][j - 1];
      }
    }
  }

  /** With a non-negative maximum, every button ends up as `Expected` says: the
      order of the buttons and the moment `count` turns into text do not matter. */
  lemma UpdatedButtonsClosedForm(bs: seq<Button>, count: nat, max: int)
    requires max >= 0
    ensures |UpdatedButtons(bs, Number(count), max)| == |bs|
    ensures forall j :: 0 <= j < |bs| ==>
      UpdatedButtons(bs, Number(count), max)[j] == Expected(bs[j], count, max)
  {
    UpdatedFrom(bs, Number(count), count, max);
  }

  /** A button is disabled exactly when the count passed in is below one,
      whether or not its label is empty. */
  lemma DisabledIffNone(bs: seq<Button>, count: nat, max: int, j: nat)
    requires max >= 0 && j < |bs|
    ensures UpdatedButtons(bs, Number(count), max)[j].disabled <==> count == 0
  {
    UpdatedButtonsClosedForm(bs, count, max);
  }

  /** A label with no token, empty or not, is not changed by the pass. */
  lemma TokenlessLabelKept(bs: seq<Button>, count: nat, max: int, j: nat)
    requires max >= 0 && j < |bs| && !HasToken(bs[j].text)
    ensures UpdatedButtons(bs, Number(count), max)[j].text == bs[j].text
  {
    UpdatedButtonsClosedForm(bs, count, max);
    ReplaceNoToken(bs[j].text, CountToken(Shown(count, max)));
  }

  /** A label "<p><token><q>" becomes "<p'>(<count>)<q'>" for a count within the
      maximum, and "<p'>(<max>+)<q'>" above it, where p' and q' are p and q
      with their own tokens rewritten the same way. */
  lemma TokenShowsCount(p: seq<char>, t: seq<char>, q: seq<char>, count: nat, max: int)
    requires max >= 0 && IsToken(t)
    ensures
      var r := UpdatedButtons([Button(p + t + q, false)], Number(count), max)[0].text;
      var shown := if count <= max then "(" + NatToDecimal(count) + ")"
                   else "(" + NatToDecimal(max) + "+)";
      r == Replace(p, shown) + shown + Replace(q, shown)
  {
    var bs := [Button(p + t + q, false)];
    var shown := CountToken(Shown(count, max));
    UpdatedButtonsClosedForm(bs, count, max);
    assert UpdatedButtons(bs, Number(count), max)[0].text == Replace(p + t + q, shown);
    EveryTokenReplaced(p, t, q, shown);
    ShownToken(count, max);
  }

  /** The replacement for `count` items, written out. */
  lemma ShownToken(count: nat, max: int)
    requires max >= 0
    ensures CountToken(Shown(count, max))
         == if count <= max then "(" + NatToDecimal(count) + ")" else "(" + NatToDecimal(max) + "+)"
  {
    if count > max {
      assert IntToDecimal(max) == NatToDecimal(max);
    }
  }

  /** A second pass overwrites the first: updating with `a` and then with `b`
      leaves the toolbar as updating once with `b`. */
  lemma UpdateOverwrites(bs: seq<Button>, a: nat, b: nat, max: int)
    requires max >= 0
    ensures UpdatedButtons(UpdatedButtons(bs, Number(a), max), Number(b), max)
         == UpdatedButtons(bs, Number(b), max)
  {
    var mid := UpdatedButtons(bs, Number(a), max);
    UpdatedButtonsClosedForm(bs, a, max);
    UpdatedButtonsClosedForm(mid, b, max);
    UpdatedButtonsClosedForm(bs, b, max);
    CountTokenIsToken(Shown(a, max));
    forall j | 0 <= j < |bs|
      ensures UpdatedButtons(mid, Number(b), max)[j] == UpdatedButtons(bs, Number(b), max)[j]
    {
      var ta := CountToken(Shown(a, max));
      var tb := CountToken(Shown(b, max));
      if bs[j].text != [] {
        ReplaceTwice(bs[j].text, ta, tb);
      }
    }
  }

  /** Resetting to zero, as every mode change does: each token reads "(0)" and
      every button is disabled. */
  lemma ResetToZero(bs: seq<Button>, max: int, j: nat)
    requires max >= 0 && j < |bs|
    ensures UpdatedButtons(bs, Number(0), max)[j].disabled
    ensures UpdatedButtons(bs, Number(0), max)[j].text
         == if bs[j].text == [] then [] else Replace(bs[j].text, "(0)")
  {
    UpdatedButtonsClosedForm(bs, 0, max);
    assert CountToken(Number(0)) == "(0)";
  }

  /** Above the default maximum the replacement is "(99+)". */
  lemma DefaultCapToken(count: nat)
    requires count > DefaultMaxButtonDisplayCount
    ensures CountToken(Shown(count, DefaultMaxButtonDisplayCount)) == "(99+)"
  {
    assert NatToDecimal(99) == "99";
  }

  /** With the default maximum of 99, any count above it (100 items, say) shows
      "(99+)" on every button with a label, and leaves every button enabled. */
  lemma DefaultCapShowsNinetyNinePlus(bs: seq<Button>, count: nat, j: nat)
    requires count > DefaultMaxButtonDisplayCount && j < |bs|
    ensures UpdatedButtons(bs, Number(count), DefaultMaxButtonDisplayCount)[j]
         == Button(if bs[j].text == [] then [] else Replace(bs[j].text, "(99+)"), false)
  {
    UpdatedButtonsClosedForm(bs, count, DefaultMaxButtonDisplayCount);
    DefaultCapToken(count);
  }

  /** With a negative maximum the replacement "(<max>+)" is not a token: its
      second character is the minus sign. */
  lemma NegativeCapNotToken(max: int)
    requires max < 0
    ensures !IsToken(CountToken(Capped(max)))
  {
    var t := CountToken(Capped(max));
    assert t[1] == '-';
    assert t[1..|t| - 1][0] == '-';
    assert t[1..|t| - 2][0] == '-';
  }

  /** A negative maximum is exceeded even by a count of zero: a labelled button
      then shows "(<max>+)", which is not a token, and is left enabled, because
      `count < 1` is evaluated on the text "<max>+". */
  lemma NegativeMaximumAtZero(b: Button, max: int)
    requires max < 0 && b.text != []
    ensures UpdatedButtons([b], Number(0), max) == [Button(Replace(b.text, CountToken(Capped(max))), false)]
    ensures !IsToken(CountToken(Capped(max)))
  {
    assert [b][0] == b && [b][1..] == [];
    NegativeCapNotToken(max);
  }
}

=== FILE: labels.dfy ===
/** The count token inside an action button's label and its rewrite.
    A token is what the regular expression `\(\d+\+?\)` matches: an opening
    parenthesis, one or more decimal digits, an optional plus sign and a
    closing parenthesis. `Replace` is `String.prototype.replace` with that
    expression and the global flag: it scans left to right, replaces every
    non-overlapping match and resumes after it. */
module Labels {

  predicate IsDigit(c: char) { '0' <= c <= '9' }

  predicate AllDigits(s: seq<char>) { forall i :: 0 <= i < |s| ==> IsDigit(s[i]) }

  predicate ParenFree(s: seq<char>) { forall i :: 0 <= i < |s| ==> s[i] != '(' }

  /** `t` is exactly one match of `\(\d+\+?\)`. */
  predicate IsToken(t: seq<char>) {
    |t| >= 3 && t[0] == '(' && t[|t| - 1] == ')' &&
    (AllDigits(t[1..|t| - 1]) || (|t| >= 4 && t[|t| - 2] == '+' && AllDigits(t[1..|t| - 2])))
  }

  /** Some substring of `s` is a token. */
  predicate HasToken(s: seq<char>) {
    exists i, j :: 0 <= i <= j <= |s| && IsToken(s[i..j])
  }

  /** A token holds no '(' after its first character and no ')' before its last. */
  lemma TokenShape(t: seq<char>)
    requires IsToken(t)
    ensures forall i :: 1 <= i < |t| ==> t[i] != '('
    ensures forall i :: 0 <= i < |t| - 1 ==> t[i] != ')'
  {
    if AllDigits(t[1..|t| - 1]) {
      forall i | 1 <= i < |t| - 1 ensures IsDigit(t[i]) {
        assert t[i] == t[1..|t| - 1][i - 1];
      }
    } else {
      forall i | 1 <= i < |t| - 2 ensures IsDigit(t[i]) {
        assert t[i] == t[1..|t| - 2][i - 1];
      }
    }
  }

  /** No token is a proper prefix of another, so a string starts with at most one token. */
  lemma TokenPrefixUnique(s: seq<char>, j: nat, k: nat)
    requires j <= |s| && k <= |s|
    requires IsToken(s[..j]) && IsToken(s[..k])
    ensures j == k
  {
    TokenShape(s[..j]);
    TokenShape(s[..k]);
    var m := if j <= k then j else k;
    assert s[..k][m - 1] == s[..j][m - 1];
  }

  /** The number of leading decimal digits of `s`. */
  function DigitRun(s: seq<char>): (n: nat)
    ensures n <= |s|
    ensures AllDigits(s[..n])
    ensures n < |s| ==> !IsDigit(s[n])
  {
    if |s| > 0 && IsDigit(s[0]) then
      var m := DigitRun(s[1..]);
      assert s[..1 + m] == [s[0]] + s[1..][..m];
      1 + m
    else 0
  }

  /** The length of the token `s` starts with, or 0 when it starts with none
      (the regular expression tried at one position). */
  function TokenLen(s: seq<char>): (k: nat)
    ensures k <= |s|
    ensures k > 0 ==> IsToken(s[..k])
  {
    if |s| == 0 || s[0] != '(' then 0
    else
      var d := DigitRun(s[1..]);
      var e := 1 + d;
      if d == 0 then 0
      else if e < |s| && s[e] == ')' then
        assert s[..e + 1][1..e] == s[1..][..d];
        e + 1
      else if e + 1 < |s| && s[e] == '+' && s[e + 1] == ')' then
        assert s[..e + 2][1..e] == s[1..][..d];
        e + 2
      else 0
  }

  /** DigitRun stops exactly at the first character that is not a digit. */
  lemma {:induction false} DigitRunStops(s: seq<char>, i: nat)
    requires i < |s| && AllDigits(s[..i]) && !IsDigit(s[i])
    ensures DigitRun(s) == i
    decreases i
  {
    if i > 0 {
      assert s[..i][0] == s[0];
      assert s[1..][..i - 1] == s[..i][1..];
      DigitRunStops(s[1..], i - 1);
    }
  }

  /** TokenLen finds every token that starts the string. */
  lemma TokenLenComplete(s: seq<char>, j: nat)
    requires j <= |s| && IsToken(s[..j])
    ensures TokenLen(s) == j
  {
    var t := s[..j];
    var m := if AllDigits(t[1..j - 1]) then j - 1 else j - 2;
    assert AllDigits(t[1..m]);
    assert s[1..][..m - 1] == t[1..m];
    assert s[1..][m - 1] == t[m];
    DigitRunStops(s[1..], m - 1);
  }

  /** A string that starts with a token `t` has TokenLen |t|. */
  lemma TokenLenOfToken(t: seq<char>, q: seq<char>)
    requires IsToken(t)
    ensures TokenLen(t + q) == |t|
  {
    assert (t + q)[..|t|] == t;
    TokenLenComplete(t + q, |t|);
  }

  /** Every match of `\(\d+\+?\)` in `s` replaced by `rep`, scanning left to right. */
  function Replace(s: seq<char>, rep: seq<char>): (r: seq<char>)
    ensures |rep| > 0 ==> (|r| == 0 <==> |s| == 0)
    decreases |s|
  {
    if |s| == 0 then []
    else
      var k := TokenLen(s);
      if k > 0 then rep + Replace(s[k..], rep)
      else [s[0]] + Replace(s[1..], rep)
  }

  /** The index of the first '(' in `s`, or |s| when there is none. */
  function FirstParen(s: seq<char>): (i: nat)
    ensures i <= |s|
    ensures ParenFree(s[..i])
    ensures i < |s| ==> s[i] == '('
  {
    if |s| == 0 || s[0] == '(' then 0
    else
      var m := FirstParen(s[1..]);
      assert s[..1 + m] == [s[0]] + s[1..][..m];
      1 + m
  }

  /** A label without any '(' is left as it is. */
  lemma {:induction false} ReplaceParenFree(s: seq<char>, rep: seq<char>)
    requires ParenFree(s)
    ensures Replace(s, rep) == s
    decreases |s|
  {
    if |s| > 0 {
      assert s[0] != '(';
      ReplaceParenFree(s[1..], rep);
    }
  }

  /** A label that contains no token is left as it is. */
  lemma {:induction false} ReplaceNoToken(s: seq<char>, rep: seq<char>)
    requires !HasToken(s)
    ensures Replace(s, rep) == s
    decreases |s|
  {
    if |s| > 0 {
      var k := TokenLen(s);
      assert s[0..k] == s[..k];
      forall i, j | 0 <= i <= j <= |s| - 1 ensures !IsToken(s[1..][i..j]) {
        assert s[1..][i..j] == s[i + 1..j + 1];
      }
      ReplaceNoToken(s[1..], rep);
    }
  }

  /** A match never reaches past a '(' that is not the first character. */
  lemma TokenLenStopsAtParen(s: seq<char>, i: nat)
    requires 1 <= i < |s| && s[i] == '('
    ensures TokenLen(s) <= i
  {
    var k := TokenLen(s);
    if k > i {
      TokenShape(s[..k]);
      assert false;
    }
  }

  /** Strings that agree on a prefix covering both their leading matches start with the same match. */
  lemma TokenLenPrefix(s: seq<char>, t: seq<char>, n: nat)
    requires n <= |s| && n <= |t| && s[..n] == t[..n]
    requires TokenLen(s) <= n && TokenLen(t) <= n
    ensures TokenLen(s) == TokenLen(t)
  {
    var k := TokenLen(s);
    var k2 := TokenLen(t);
    if k > 0 {
      assert t[..k] == s[..k];
      TokenLenComplete(t, k);
    } else if k2 > 0 {
      assert s[..k2] == t[..k2];
      TokenLenComplete(s, k2);
    }
  }

  // The next three lemmas only unfold `Replace` once or regroup `+`. Calling
  // them keeps the solver's work in `ReplaceConcat` small and stable.

  /** A match at the front is replaced and the scan resumes after it. */
  lemma ReplaceMatched(s: seq<char>, rep: seq<char>, k: nat)
    requires 0 < k == TokenLen(s)
    ensures Replace(s, rep) == rep + Replace(s[k..], rep)
  {
  }

  /** Without a match at the front the first character is kept. */
  lemma ReplaceCopied(s: seq<char>, rep: seq<char>)
    requires 0 < |s| && TokenLen(s) == 0
    ensures Replace(s, rep) == [s[0]] + Replace(s[1..], rep)
  {
  }

  /** Concatenation regroups freely. */
  lemma AppendAssoc(a: seq<char>, b: seq<char>, c: seq<char>)
    ensures a + (b + c) == (a + b) + c
  {
  }

  /** Rewriting distributes over a split point that is followed by '(':
      no match starting before the split reaches across it. */
  lemma {:induction false} ReplaceConcat(p: seq<char>, x: seq<char>, rep: seq<char>)
    requires |x| > 0 && x[0] == '('
    ensures Replace(p + x, rep) == Replace(p, rep) + Replace(x, rep)
    decreases |p|
  {
    if |p| == 0 {
      assert p + x == x;
    } else {
      var s := p + x;
      TokenLenStopsAtParen(s, |p|);
      assert s[..|p|] == p[..|p|];
      TokenLenPrefix(s, p, |p|);
      var k := TokenLen(p);
      if k > 0 {
        assert s[k..] == p[k..] + x;
        ReplaceConcat(p[k..], x, rep);
        ReplaceMatched(s, rep, k);
        ReplaceMatched(p, rep, k);
        AppendAssoc(rep, Replace(p[k..], rep), Replace(x, rep));
      } else {
        assert s[0] == p[0] && s[1..] == p[1..] + x;
        ReplaceConcat(p[1..], x, rep);
        ReplaceCopied(s, rep);
        ReplaceCopied(p, rep);
        AppendAssoc([p[0]], Replace(p[1..], rep), Replace(x, rep));
      }
    }
  }

  /** A token at the front is replaced, and the scan resumes right after it. */
  lemma TokenReplaced(t: seq<char>, q: seq<char>, rep: seq<char>)
    requires IsToken(t)
    ensures Replace(t + q, rep) == rep + Replace(q, rep)
  {
    TokenLenOfToken(t, q);
    assert (t + q)[|t|..] == q;
  }

  /** Every token of a label becomes exactly `rep`, whatever surrounds it. */
  lemma EveryTokenReplaced(p: seq<char>, t: seq<char>, q: seq<char>, rep: seq<char>)
    requires IsToken(t)
    ensures Replace(p + t + q, rep) == Replace(p, rep) + rep + Replace(q, rep)
  {
    assert p + t + q == p + (t + q);
    ReplaceConcat(p, t + q, rep);
    TokenReplaced(t, q, rep);
  }

  /** The rewrite keeps a leading '(' when the replacement also starts with one. */
  lemma ReplaceKeepsParen(x: seq<char>, rep: seq<char>)
    requires |x| > 0 && x[0] == '('
    requires |rep| > 0 && rep[0] == '('
    ensures |Replace(x, rep)| > 0 && Replace(x, rep)[0] == '('
  {
  }

  /** The rewrite leaves everything before the first '(' alone, and keeps a '(' in that place. */
  lemma RewriteUpToFirstParen(u: seq<char>, rep: seq<char>)
    requires |rep| > 0 && rep[0] == '('
    ensures FirstParen(u) == |u| ==> Replace(u, rep) == u
    ensures FirstParen(u) < |u| ==>
      FirstParen(u) < |Replace(u, rep)| &&
      Replace(u, rep)[..FirstParen(u)] == u[..FirstParen(u)] &&
      Replace(u, rep)[FirstParen(u)] == '('
  {
    var i := FirstParen(u);
    if i == |u| {
      assert u[..i] == u;
      ReplaceParenFree(u, rep);
    } else {
      assert u == u[..i] + u[i..];
      ReplaceConcat(u[..i], u[i..], rep);
      ReplaceParenFree(u[..i], rep);
      ReplaceKeepsParen(u[i..], rep);
      var z := Replace(u[i..], rep);
      assert Replace(u, rep) == u[..i] + z;
      assert (u[..i] + z)[..i] == u[..i];
    }
  }

  /** A string that starts with no match keeps starting with none when
      everything after its first character up to the next '(' stays in place. */
  lemma NoMatchUpToParen(s: seq<char>, y: seq<char>, i: nat)
    requires |s| > 0 && TokenLen(s) == 0 && i < |s| - 1
    requires i < |y| && y[..i] == s[1..][..i] && y[i] == '('
    ensures TokenLen([s[0]] + y) == 0
  {
    var w := [s[0]] + y;
    assert w[..1 + i] == [s[0]] + y[..i];
    assert s[..1 + i] == [s[0]] + s[1..][..i];
    assert w[1 + i] == y[i];
    TokenLenStopsAtParen(w, 1 + i);
    TokenLenPrefix(w, s, 1 + i);
  }

  /** A '(' that starts no match still starts none once the rest of the label
      has been rewritten with a replacement that begins with '('. */
  lemma UnmatchedParenKept(s: seq<char>, rep: seq<char>)
    requires |s| > 0 && s[0] == '(' && TokenLen(s) == 0
    requires |rep| > 0 && rep[0] == '('
    ensures TokenLen(['('] + Replace(s[1..], rep)) == 0
  {
    var u := s[1..];
    var i := FirstParen(u);
    RewriteUpToFirstParen(u, rep);
    if i == |u| {
      assert ['('] + Replace(u, rep) == s;
    } else {
      NoMatchUpToParen(s, Replace(u, rep), i);
    }
  }

  /** Rewriting with one token and then with `r2` is rewriting with `r2` alone:
      each replacement is itself a token, found again by the second pass, and
      it creates no new match with its neighbours. */
  lemma {:induction false} ReplaceTwice(s: seq<char>, r1: seq<char>, r2: seq<char>)
    requires IsToken(r1)
    ensures Replace(Replace(s, r1), r2) == Replace(s, r2)
    decreases |s|
  {
    if |s| == 0 {
    } else if TokenLen(s) > 0 {
      var k := TokenLen(s);
      TokenReplaced(r1, Replace(s[k..], r1), r2);
      ReplaceTwice(s[k..], r1, r2);
    } else {
      var y := Replace(s[1..], r1);
      var w := [s[0]] + y;
      assert Replace(s, r1) == w;
      if s[0] == '(' {
        UnmatchedParenKept(s, r1);
      }
      assert TokenLen(w) == 0;
      assert w[1..] == y;
      ReplaceTwice(s[1..], r1, r2);
    }
  }

  /** The decimal digit for a value below ten. */
  function DigitChar(d: nat): (c: char)
    requires d < 10
    ensures IsDigit(c)
    ensures c as int - '0' as int == d
  {
    ('0' as int + d) as char
  }

  /** JavaScript's `String(n)` for a non-negative integer below 1e21 (from
      there JavaScript switches to exponent notation, and above 2^53 a number
      is not exact): decimal digits, no leading zero. */
  function NatToDecimal(n: nat): (s: seq<char>)
    ensures |s| >= 1 && AllDigits(s)
    ensures s[0] == '0' <==> n == 0
    ensures n == 0 ==> s == "0"
    decreases n
  {
    if n < 10 then [DigitChar(n)]
    else NatToDecimal(n / 10) + [DigitChar(n % 10)]
  }

  /** The value of a string of decimal digits. */
  function DecimalValue(s: seq<char>): nat
    requires AllDigits(s)
  {
    if |s| == 0 then 0
    else DecimalValue(s[..|s| - 1]) * 10 + (s[|s| - 1] as int - '0' as int)
  }

  /** Reading back the decimal text of `n` gives `n`. */
  lemma {:induction false} DecimalRoundTrip(n: nat)
    ensures DecimalValue(NatToDecimal(n)) == n
    decreases n
  {
    var s := NatToDecimal(n);
    if n >= 10 {
      DecimalRoundTrip(n / 10);
      assert s[..|s| - 1] == NatToDecimal(n / 10);
    }
  }

  /** JavaScript's `String(i)` for an integer of magnitude below 1e21: a minus
      sign before the digits of a negative value. */
  function IntToDecimal(i: int): (s: seq<char>)
    ensures |s| >= 1
    ensures s[0] == '-' <==> i < 0
    ensures i >= 0 ==> AllDigits(s)
  {
    if i < 0 then ['-'] + NatToDecimal(-i) else NatToDecimal(i)
  }
}

=== FILE: mode.dfy ===
/** Action mode as a state machine over the part of the plugin and its list
    that the mode changes touch. Each operation of the plugin is a function
    from state to state here; the plugin class is proved to follow them.
    A mode change has two halves: what `doSetEnabled` does at once, and the
    `doEnableActions` / `doDisableActions` call it schedules to run after the
    toolbar animation. The second half is a `Deferred` value that the caller
    runs later with `Run`. */
module Mode {
  import opened Labels
  import opened Buttons
  import opened Rows
  import opened Toggle

  datatype SelectionMode = Single | Multi

  /** An argument as `Ext.isBoolean` sees it: a boolean, or any other value
      (null, undefined, an event object). */
  datatype JsValue = Boolean(b: bool) | NonBoolean

  /** The call `doSetEnabled` schedules, with the suppress flag it passes on. */
  datatype Deferred = EnableActions(suppress: bool) | DisableActions(suppress: bool)

  datatype State = State(
    enabled: bool,                // the plugin's `enabled` option
    toolbarVisible: bool,         // the actions toolbar is shown
    selection: set<nat>,          // the list's selected records
    mode: SelectionMode,          // the list's selection mode
    disableSelection: bool,       // the list refuses selection
    enabledCls: bool,             // the list carries the 'x-list-plugin-listaction-enabled' class
    buttons: seq<Button>,         // the actions toolbar's buttons, in order
    rows: seq<Row>,               // the list's rendered rows
    toggle: Option<ToggleButton>) // the bound toggle button, if one was found

  /** `Ext.isBoolean(x) ? x : fallback` */
  function BooleanOr(x: JsValue, fallback: bool): bool
  {
    if x.Boolean? then x.b else fallback
  }

  /** The mode `doSetEnabled` switches to: a boolean argument is taken as it
      is, anything else toggles the current mode. */
  function NextMode(arg: JsValue, current: bool): (m: bool)
    ensures arg.Boolean? ==> m == arg.b
    ensures arg.NonBoolean? ==> m != current
  {
    BooleanOr(arg, !current)
  }

  /** Toggling twice restores the flag. */
  lemma ToggleTwice(current: bool)
    ensures NextMode(NonBoolean, NextMode(NonBoolean, current)) == current
  {
  }

  /** Every rendered row run through the row hook, as a list refresh does. */
  function RefreshedRows(rows: seq<Row>, enabled: bool): (r: seq<Row>)
    ensures |r| == |rows|
    ensures forall i :: 0 <= i < |rows| ==>
      r[i].selectedCls == rows[i].selectedCls && (r[i].hasIndicator <==> rows[i].hasIndicator || enabled)
  {
    seq(|rows|, i requires 0 <= i < |rows| => Injected(rows[i], enabled))
  }

  /** The immediate half of `doSetEnabled(arg, _)`: set the flag, show the
      toolbar and add the class (enable) or hide the toolbar and deselect all
      (disable), reset the buttons to a count of zero, refresh the rows. */
  function SetEnabled(s: State, arg: JsValue, max: int): (t: State)
    ensures t.enabled == t.toolbarVisible == NextMode(arg, s.enabled)
    ensures t.enabled ==> t.enabledCls && t.selection == s.selection
    ensures !t.enabled ==> t.enabledCls == s.enabledCls && t.selection == {}
    ensures t.mode == s.mode && t.disableSelection == s.disableSelection && t.toggle == s.toggle
    ensures |t.buttons| == |s.buttons| && |t.rows| == |s.rows|
  {
    var e := NextMode(arg, s.enabled);
    s.(enabled := e,
       toolbarVisible := e,
       enabledCls := e || s.enabledCls,
       selection := if e then s.selection else {},
       buttons := UpdatedButtons(s.buttons, Number(0), max),
       rows := RefreshedRows(s.rows, e))
  }

  /** The call `doSetEnabled` schedules for mode `e`; a non-boolean suppress
      argument means false. */
  function Scheduled(e: bool, suppress: JsValue): (d: Deferred)
    ensures d.EnableActions? <==> e
    ensures d.suppress <==> suppress == Boolean(true)
  {
    var sup := BooleanOr(suppress, false);
    if e then EnableActions(sup) else DisableActions(sup)
  }

  /** `toggleActionButton` for an event fired by the list: swap the label of a
      bound button, nothing without one. */
  function ListEvent(s: State): (t: State)
    ensures t == s.(toggle := t.toggle)
    ensures t.toggle.Some? <==> s.toggle.Some?
    ensures s.toggle.Some? && s.toggle.value.enableText != s.toggle.value.disableText ==>
      (TapEnables(s.toggle.value) ==> t.toggle.value.text == s.toggle.value.disableText) &&
      (!TapEnables(s.toggle.value) ==> TapEnables(t.toggle.value))
    ensures s.toggle.Some? ==> t.toggle == Some(Swapped(s.toggle.value))
  {
    if s.toggle.Some? then s.(toggle := Some(Swapped(s.toggle.value))) else s
  }

  /** `doEnableActions`: allow multi-selection, then announce it unless suppressed. */
  function EnableActionsDone(s: State, suppress: bool): (t: State)
    ensures t == s.(mode := Multi, disableSelection := false, toggle := t.toggle)
    ensures suppress ==> t.toggle == s.toggle
    ensures !suppress ==> t.toggle == ListEvent(s).toggle
  {
    var t := s.(disableSelection := false, mode := Multi);
    if suppress then t else ListEvent(t)
  }

  /** `doDisableActions`: drop the class, refuse selection, single mode, then
      announce it unless suppressed. */
  function DisableActionsDone(s: State, suppress: bool): (t: State)
    ensures t == s.(enabledCls := false, disableSelection := true, mode := Single, toggle := t.toggle)
    ensures suppress ==> t.toggle == s.toggle
    ensures !suppress ==> t.toggle == ListEvent(s).toggle
  {
    var t := s.(enabledCls := false, disableSelection := true, mode := Single);
    if suppress then t else ListEvent(t)
  }

  /** The scheduled half running when its delay has passed. */
  function Run(s: State, d: Deferred): (t: State)
    ensures t.mode == (if d.EnableActions? then Multi else Single)
    ensures t.disableSelection <==> d.DisableActions?
    ensures d.DisableActions? ==> !t.enabledCls
    ensures d.EnableActions? ==> t.enabledCls == s.enabledCls
    ensures t == s.(mode := t.mode, disableSelection := t.disableSelection, enabledCls := t.enabledCls,
                    toggle := t.toggle)
  {
    match d
    case EnableActions(sup) => EnableActionsDone(s, sup)
    case DisableActions(sup) => DisableActionsDone(s, sup)
  }

  /** `toggleActionButton` for a tap on the bound button: enable when the label
      reads the enable text, disable otherwise. */
  function Tapped(s: State, max: int): (t: State)
    ensures s.toggle.None? ==> t == s
    ensures s.toggle.Some? ==> t.enabled == TapEnables(s.toggle.value) && t.toggle == s.toggle
  {
    if s.toggle.Some? then SetEnabled(s, Boolean(TapEnables(s.toggle.value)), max) else s
  }

  /** What a tap schedules. */
  function TapSchedules(s: State): Option<Deferred>
  {
    if s.toggle.Some? then Some(Scheduled(TapEnables(s.toggle.value), NonBoolean)) else None
  }

  /** `onItemSelect`: in action mode, show the list's selection count. */
  function ItemSelected(s: State, max: int): (t: State)
    ensures t == s.(buttons := t.buttons) && |t.buttons| == |s.buttons|
    ensures !s.enabled ==> t == s
  {
    if s.enabled then s.(buttons := UpdatedButtons(s.buttons, Number(|s.selection|), max)) else s
  }

  /** The row hook run on one rendered row. */
  function RowUpdated(s: State, index: nat): (t: State)
    requires index < |s.rows|
    ensures t == s.(rows := t.rows) && |t.rows| == |s.rows|
    ensures forall k :: 0 <= k < |s.rows| && k != index ==> t.rows[k] == s.rows[k]
    ensures t.rows[index].hasIndicator <==> s.rows[index].hasIndicator || s.enabled
  {
    s.(rows := s.rows[index := Injected(s.rows[index], s.enabled)])
  }

  /** `applyActionToggleButton`: a button that was found is bound with the
      merged labels and shows the enable text. */
  function ToggleBound(s: State, found: bool, enableText: Option<seq<char>>, disableText: Option<seq<char>>): (t: State)
    ensures !found ==> t == s
    ensures found ==> t == s.(toggle := t.toggle) && t.toggle.Some? && TapEnables(t.toggle.value)
  {
    if found then s.(toggle := Some(Bound(enableText, disableText))) else s
  }

  /** `isEnabled`: what the list's class says, not the plugin's flag. The two
      agree in a settled state. A plugin created with the `enabled` option set
      has nothing pending and still disagrees until its first mode change
      (`EnabledOptionNotShown`). */
  function IsEnabled(s: State): (r: bool)
    ensures Settled(s) ==> (r <==> s.enabled)
  {
    s.enabledCls
  }

  /** A state no scheduled half is waiting on: enabled with multi-selection,
      or disabled with single, refused selection and nothing selected. */
  predicate Settled(s: State)
  {
    s.toolbarVisible == s.enabled &&
    s.enabledCls == s.enabled &&
    s.disableSelection == !s.enabled &&
    s.mode == (if s.enabled then Multi else Single) &&
    (!s.enabled ==> s.selection == {})
  }

  /** The bound button's label offers the opposite of the current mode. */
  predicate LabelOffersSwitch(s: State)
  {
    s.toggle.Some? ==>
      s.toggle.value.enableText != s.toggle.value.disableText &&
      s.toggle.value.text == (if s.enabled then s.toggle.value.disableText else s.toggle.value.enableText)
  }

  /** Every mode change, either way, resets the count: every token reads "(0)",
      every button is disabled; the toolbar follows the new mode, and leaving
      action mode empties the selection. */
  lemma SetEnabledResets(s: State, arg: JsValue, max: int, j: nat)
    requires max >= 0 && j < |s.buttons|
    ensures SetEnabled(s, arg, max).buttons[j].disabled
    ensures SetEnabled(s, arg, max).buttons[j].text
         == if s.buttons[j].text == [] then [] else Replace(s.buttons[j].text, "(0)")
    ensures SetEnabled(s, arg, max).toolbarVisible == SetEnabled(s, arg, max).enabled
    ensures !SetEnabled(s, arg, max).enabled ==> SetEnabled(s, arg, max).selection == {}
  {
    ResetToZero(s.buttons, max, j);
  }

  /** After the scheduled half has run, the list is in multi-selection mode in
      action mode and refuses selection in single mode outside it. */
  lemma CompletedChangeSettles(s: State, arg: JsValue, suppress: JsValue, max: int)
    ensures
      var t := SetEnabled(s, arg, max);
      var u := Run(t, Scheduled(t.enabled, suppress));
      u.enabled == NextMode(arg, s.enabled) && Settled(u)
  {
  }

  /** `isEnabled` lags behind a disable: right after `doSetEnabled(false)` it
      still answers true, and only the scheduled half clears it. */
  lemma IsEnabledLagsDisable(s: State, max: int, suppress: bool)
    requires Settled(s) && s.enabled
    ensures !SetEnabled(s, Boolean(false), max).enabled
    ensures IsEnabled(SetEnabled(s, Boolean(false), max))
    ensures !IsEnabled(Run(SetEnabled(s, Boolean(false), max), DisableActions(suppress)))
  {
  }

  /** While in action mode a select or deselect shows the selection count on
      every button, disabled exactly when nothing is selected; outside action
      mode nothing changes. */
  lemma SelectionShownInActionMode(s: State, max: int, j: nat)
    requires max >= 0 && j < |s.buttons|
    ensures s.enabled ==> ItemSelected(s, max).buttons[j] == Expected(s.buttons[j], |s.selection|, max)
    ensures s.enabled ==> (ItemSelected(s, max).buttons[j].disabled <==> s.selection == {})
    ensures !s.enabled ==> ItemSelected(s, max) == s
  {
    UpdatedButtonsClosedForm(s.buttons, |s.selection|, max);
  }

  /** A tap on the bound button, once its scheduled half has run, switches the
      list to the other mode and leaves it settled, with the label offering the
      way back. This holds from any state, the new plugin's included. */
  lemma TapSwitchesMode(s: State, max: int)
    requires s.toggle.Some? && LabelOffersSwitch(s)
    ensures TapSchedules(s).Some?
    ensures
      var u := Run(Tapped(s, max), TapSchedules(s).value);
      Settled(u) && u.enabled == !s.enabled && LabelOffersSwitch(u) &&
      u.buttons == UpdatedButtons(s.buttons, Number(0), max)
  {
    var b := s.toggle.value;
    SwapTwice(b);
    var t := Tapped(s, max);
    assert t.enabled == !s.enabled;
  }

  /** Two completed taps from a disabled list leave it settled out of action
      mode: whatever selection mode it started in, it ends in single mode with
      selection refused and nothing selected. The rows have gained their
      indicators and the buttons show a count of 0. */
  lemma {:induction false} TapTwiceSettles(s: State, max: int)
    requires max >= 0
    requires !s.enabled && s.toggle.Some? && LabelOffersSwitch(s)
    ensures TapSchedules(s).Some?
    ensures
      var u := Run(Tapped(s, max), TapSchedules(s).value);
      TapSchedules(u).Some? &&
      Run(Tapped(u, max), TapSchedules(u).value)
        == s.(toolbarVisible := false, selection := {}, mode := Single, disableSelection := true,
              enabledCls := false, buttons := UpdatedButtons(s.buttons, Number(0), max),
              rows := RefreshedRows(s.rows, true))
  {
    TapSwitchesMode(s, max);
    var u := Run(Tapped(s, max), TapSchedules(s).value);
    TapSwitchesMode(u, max);
    var w := Run(Tapped(u, max), TapSchedules(u).value);
    UpdateOverwrites(s.buttons, 0, 0, max);
    SwapTwice(s.toggle.value);
    assert w.toggle == s.toggle;
    assert w.rows == RefreshedRows(s.rows, true);
  }

  /** From a settled, disabled list two completed taps restore it, except that
      the rows have gained their indicators and the buttons show a count of 0. */
  lemma TapTwiceRestores(s: State, max: int)
    requires max >= 0
    requires Settled(s) && !s.enabled && s.toggle.Some? && LabelOffersSwitch(s)
    ensures TapSchedules(s).Some?
    ensures
      var u := Run(Tapped(s, max), TapSchedules(s).value);
      TapSchedules(u).Some? &&
      Run(Tapped(u, max), TapSchedules(u).value)
        == s.(buttons := UpdatedButtons(s.buttons, Number(0), max), rows := RefreshedRows(s.rows, true))
  {
    TapTwiceSettles(s, max);
  }

  /** A plugin created with the `enabled` option set is bound with its label
      on the enable text while in action mode: its first tap enables again and
      only swaps the label to "cancel". */
  lemma EnabledOptionFirstTapStaysEnabled(selection: set<nat>, bs: seq<Button>, rows: seq<Row>, max: int)
    ensures
      var s := Initial(true, selection, bs, rows, Some(Bound(None, None)));
      var u := Run(Tapped(s, max), TapSchedules(s).value);
      !LabelOffersSwitch(s) && u.enabled && u.toggle.value.text == "cancel"
  {
  }

  /** A repaint binds the button again and puts the enable text on it, so in
      action mode the label no longer offers the switch. */
  lemma RepaintInActionMode(s: State, enableText: Option<seq<char>>, disableText: Option<seq<char>>)
    requires s.enabled
    ensures !LabelOffersSwitch(ToggleBound(s, true, enableText, disableText))
  {
  }

  /** A redundant `disableActions()` on a settled, disabled list swaps the
      label without changing the mode. Two completed taps from there end in
      action mode, not out of it. */
  lemma RedundantDisableSwapsLabel(s: State, max: int)
    requires Settled(s) && !s.enabled && s.toggle.Some? && LabelOffersSwitch(s)
    ensures
      var u := Run(SetEnabled(s, Boolean(false), max), Scheduled(false, NonBoolean));
      var v := Run(Tapped(u, max), TapSchedules(u).value);
      var w := Run(Tapped(v, max), TapSchedules(v).value);
      Settled(u) && !u.enabled && !LabelOffersSwitch(u) && w.enabled && w.mode == Multi
  {
  }

  /** The plugin and its list as they are right after the plugin is created and
      its toggle button bound: the `enabled` option as configured, the toolbar
      hidden, no class on the list, and the list in its own default single mode
      with selection allowed. */
  function Initial(enabled: bool, selection: set<nat>, buttons: seq<Button>, rows: seq<Row>,
                   toggle: Option<ToggleButton>): (s: State)
    ensures s.enabled == enabled && s.selection == selection
    ensures !s.toolbarVisible && !IsEnabled(s)
    ensures !Settled(s)
  {
    State(enabled, false, selection, Single, false, false, buttons, rows, toggle)
  }

  /** A plugin created with the `enabled` option set has its flag on while
      `isEnabled` answers false: only `doSetEnabled` adds the class. */
  lemma EnabledOptionNotShown(selection: set<nat>, bs: seq<Button>, rows: seq<Row>, toggle: Option<ToggleButton>)
    ensures var s := Initial(true, selection, bs, rows, toggle);
      s.enabled && !IsEnabled(s) && !Settled(s)
  {
  }

  /** The first cycle of a new plugin does not come back to where it started:
      the list allowed selection in single mode, and after enabling and
      disabling again it refuses selection. */
  lemma FirstCycleRefusesSelection(selection: set<nat>, bs: seq<Button>, rows: seq<Row>, max: int)
    requires max >= 0
    ensures
      var s := Initial(false, selection, bs, rows, Some(Bound(None, None)));
      var u := Run(Tapped(s, max), TapSchedules(s).value);
      var w := Run(Tapped(u, max), TapSchedules(u).value);
      !s.disableSelection && w.disableSelection && w != s
  {
    var s := Initial(false, selection, bs, rows, Some(Bound(None, None)));
    assert LabelOffersSwitch(s);
    TapTwiceSettles(s, max);
  }

  /** The toolbar shows the selection count of the list. */
  predicate CountShown(s: State, labels: seq<Button>, max: int)
  {
    s.buttons == UpdatedButtons(labels, Number(|s.selection|), max)
  }

  /** Entering action mode with nothing selected, as from a settled list, shows
      the selection count; so does leaving it, which empties the selection. */
  lemma ModeChangeShowsCount(s: State, arg: JsValue, max: int)
    ensures s.selection == {} || !SetEnabled(s, arg, max).enabled ==>
      CountShown(SetEnabled(s, arg, max), s.buttons, max)
  {
  }

  /** A select or deselect in action mode keeps the count shown: the new count
      overwrites the old one. */
  lemma {:induction false} SelectionKeepsCountShown(s: State, labels: seq<Button>, selection: set<nat>, max: int)
    requires max >= 0 && s.enabled && CountShown(s, labels, max)
    ensures CountShown(ItemSelected(s.(selection := selection), max), labels, max)
  {
    UpdateOverwrites(labels, |s.selection|, |selection|, max);
  }

  /** Entering action mode with records still selected, as the new plugin's
      list allows (or enabling again while in action mode), shows "(0)" on
      every button and disables it, although the selection is not empty: the
      count shown is not the selection count. */
  lemma EnableWithSelectionShowsZero(s: State, max: int, j: nat)
    requires max >= 0 && s.selection != {} && j < |s.buttons|
    ensures SetEnabled(s, Boolean(true), max).selection == s.selection
    ensures SetEnabled(s, Boolean(true), max).buttons[j].disabled
    ensures !CountShown(SetEnabled(s, Boolean(true), max), s.buttons, max)
  {
    var t := SetEnabled(s, Boolean(true), max);
    ResetToZero(s.buttons, max, j);
    DisabledIffNone(s.buttons, |s.selection|, max, j);
    assert UpdatedButtons(s.buttons, Number(|s.selection|), max)[j] != t.buttons[j];
  }

  /** The row hook adds an indicator only in action mode, never a second one,
      and marks it selected exactly when the row carries the selected class. */
  lemma RowHookInjectsOnce(s: State, index: nat)
    requires index < |s.rows|
    ensures
      var r := RowUpdated(s, index).rows[index];
      var before := s.rows[index];
      (r != before <==> s.enabled && !before.hasIndicator) &&
      (r != before ==> r.hasIndicator && (r.indicatorSelected <==> before.selectedCls))
    ensures RowUpdated(RowUpdated(s, index), index) == RowUpdated(s, index)
  {
    InjectedIdempotent(s.rows[index], s.enabled, s.enabled);
  }
}

=== FILE: plugin.dfy ===
/** The plugin object and the list it is attached to, with the state the
    plugin reads and changes in place. Every method is proved to follow the
    corresponding function of the `Mode` state machine. */
module Plugin {
  import opened Labels
  import opened Buttons
  import opened Rows
  import opened Toggle
  import opened Mode

  /** The host list, reduced to what the plugin reads and sets on it. */
  class List {
    var selection: set<nat>
    var mode: SelectionMode
    var disableSelection: bool
    /** The 'x-list-plugin-listaction-enabled' class on the list. */
    var actionsEnabledCls: bool
    /** The rendered rows. */
    const items: array<Row>

    constructor (rows: seq<Row>)
      ensures fresh(items) && items[..] == rows
      ensures selection == {} && mode == Single && !disableSelection && !actionsEnabledCls
    {
      selection := {};
      mode := Single;
      disableSelection := false;
      actionsEnabledCls := false;
      items := new Row[|rows|](i requires 0 <= i < |rows| => rows[i]);
    }
  }

  class ListActions {
    const list: List
    /** The `enabled` option: whether the list is in action mode. */
    var enabled: bool
    /** The `maxButtonDisplayCount` option. */
    const maxButtonDisplayCount: int
    /** Whether the actions toolbar is shown. */
    var toolbarVisible: bool
    /** The buttons of the actions toolbar. */
    const buttons: array<Button>
    /** The bound toggle button, if one was found. */
    var toggle: Option<ToggleButton>

    /** The plugin and its list as a `Mode.State`. */
    ghost function Snapshot(): State
      reads this, list, buttons, list.items
    {
      State(enabled, toolbarVisible, list.selection, list.mode, list.disableSelection,
            list.actionsEnabledCls, buttons[..], list.items[..], toggle)
    }

    /** Creating the plugin and attaching it to `list`: the `enabled` option as
        configured (false by default), the toolbar hidden whatever that option
        says, no toggle button bound yet; the maximum defaults to 99. */
    constructor (list: List, toolbar: seq<Button>, enabledOption: Option<bool>, maxCount: Option<int>)
      ensures this.list == list && fresh(buttons) && buttons[..] == toolbar
      ensures enabled == (enabledOption.Some? && enabledOption.value)
      ensures !toolbarVisible && toggle == None
      ensures maxButtonDisplayCount == if maxCount.Some? then maxCount.value else DefaultMaxButtonDisplayCount
    {
      this.list := list;
      enabled := enabledOption.Some? && enabledOption.value;
      maxButtonDisplayCount := if maxCount.Some? then maxCount.value else DefaultMaxButtonDisplayCount;
      toolbarVisible := false;
      buttons := new Button[|toolbar|](i requires 0 <= i < |toolbar| => toolbar[i]);
      toggle := None;
    }

    /** `isEnabled`: reads the list's class, not the `enabled` flag. */
    function IsEnabled(): (r: bool)
      reads this, list, buttons, list.items
      ensures r == Mode.IsEnabled(Snapshot())
    {
      list.actionsEnabledCls
    }

    /** The body of `updateActionButtonsText`'s loop for the button at `i`,
        with `count` equal to `c`: rewrite the label's tokens, set the disabled
        flag, and hand on the new value of `count`. */
    method UpdateButtonAt(i: nat, c: CountValue) returns (b: Button, c': CountValue)
      requires i < buttons.Length
      modifies buttons
      ensures (b, c') == UpdateButton(old(buttons[i]), c, maxButtonDisplayCount)
      ensures buttons[..] == old(buttons[..])[i := b]
    {
      b := buttons[i];
      c' := c;
      if b.text != [] {
        if Exceeds(c', maxButtonDisplayCount) {
          c' := Capped(maxButtonDisplayCount);
        }
        b := b.(text := Replace(b.text, CountToken(c')));
      }
      b := b.(disabled := BelowOne(c'));
      buttons[i] := b;
    }

    /** `updateActionButtonsText(count)`: one pass over the toolbar's buttons,
        rewriting every count token and setting each disabled flag. */
    method UpdateActionButtonsText(count: nat)
      modifies buttons
      ensures buttons[..] == UpdatedButtons(old(buttons[..]), Number(count), maxButtonDisplayCount)
    {
      ghost var before := buttons[..];
      ghost var done: seq<Button> := [];
      var c := Number(count);
      var i := 0;
      while i < buttons.Length
        invariant 0 <= i <= buttons.Length
        invariant |done| == i
        invariant forall k :: 0 <= k < i ==> buttons[k] == done[k]
        invariant forall k :: i <= k < buttons.Length ==> buttons[k] == before[k]
        invariant UpdatedButtons(before, Number(count), maxButtonDisplayCount)
               == done + UpdatedButtons(before[i..], c, maxButtonDisplayCount)
      {
        ghost var cBefore := c;
        var b;
        b, c := UpdateButtonAt(i, c);
        PassStep(before, Number(count), done, i, cBefore, maxButtonDisplayCount, b, c);
        done := done + [b];
        i := i + 1;
      }
      assert before[i..] == [];
      assert buttons[..] == done;
    }

    /** `doUpdateListItem`, the hook run after the list renders the row at `index`. */
    method DoUpdateListItem(index: nat)
      requires index < list.items.Length
      modifies list.items
      ensures list.items[..] == old(list.items[..])[index := Injected(old(list.items[index]), enabled)]
    {
      if enabled {
        var row := list.items[index];
        if !row.hasIndicator {
          list.items[index] := Row(row.selectedCls, true, row.selectedCls);
        }
      }
    }

    /** The list's refresh, reduced to its effect through the plugin: the row
        hook runs on every rendered row. */
    method Refresh()
      modifies list.items
      ensures list.items[..] == RefreshedRows(old(list.items[..]), enabled)
    {
      var i := 0;
      while i < list.items.Length
        invariant 0 <= i <= list.items.Length
        invariant forall k :: 0 <= k < i ==> list.items[k] == Injected(old(list.items[k]), enabled)
        invariant forall k :: i <= k < list.items.Length ==> list.items[k] == old(list.items[k])
      {
        DoUpdateListItem(i);
        i := i + 1;
      }
    }

    /** `doSetEnabled(arg, suppress)`: the immediate half of a mode change. It
        returns the new mode and the call it leaves for after the animation. */
    method DoSetEnabled(arg: JsValue, suppress: JsValue) returns (r: bool, deferred: Deferred)
      modifies this, list, buttons, list.items
      ensures Snapshot() == SetEnabled(old(Snapshot()), arg, maxButtonDisplayCount)
      ensures r == enabled == NextMode(arg, old(enabled))
      ensures deferred == Scheduled(r, suppress)
    {
      var e := NextMode(arg, enabled);
      enabled := e;
      if e {
        toolbarVisible := true;
        list.actionsEnabledCls := true;
      } else {
        toolbarVisible := false;
        // The deselect events this fires reach onItemSelect with the flag
        // already false, so they change nothing.
        list.selection := {};
      }
      deferred := Scheduled(e, suppress);
      UpdateActionButtonsText(0);
      Refresh();
      r := e;
    }

    /** `toggleActionButton`: a tap on the bound button (`fromList` false) asks
        for the mode its label offers; an event from the list only swaps the
        label. Without a bound button nothing happens. */
    method ToggleActionButton(fromList: bool) returns (scheduled: Option<Deferred>)
      modifies this, list, buttons, list.items
      ensures Snapshot() == if fromList then ListEvent(old(Snapshot())) else Tapped(old(Snapshot()), maxButtonDisplayCount)
      ensures scheduled == if fromList then None else TapSchedules(old(Snapshot()))
    {
      scheduled := None;
      if toggle.None? {
        return;
      }
      var button := toggle.value;
      if button.text == button.enableText {
        if !fromList {
          var _, d := DoSetEnabled(Boolean(true), NonBoolean);
          scheduled := Some(d);
        } else {
          toggle := Some(button.(text := button.disableText));
        }
      } else {
        if !fromList {
          var _, d := DoSetEnabled(Boolean(false), NonBoolean);
          scheduled := Some(d);
        } else {
          toggle := Some(button.(text := button.enableText));
        }
      }
    }

    /** `doEnableActions(suppress)`: the scheduled half of enabling. */
    method DoEnableActions(suppress: bool) returns (fired: bool)
      modifies this, list, buttons, list.items
      ensures Snapshot() == EnableActionsDone(old(Snapshot()), suppress)
      ensures fired == !suppress
    {
      list.disableSelection := false;
      list.mode := Multi;
      fired := !suppress;
      if fired {
        // 'actionsenabled' reaches the bound button's listener
        var _ := ToggleActionButton(true);
      }
    }

    /** `doDisableActions(suppress)`: the scheduled half of disabling. */
    method DoDisableActions(suppress: bool) returns (fired: bool)
      modifies this, list, buttons, list.items
      ensures Snapshot() == DisableActionsDone(old(Snapshot()), suppress)
      ensures fired == !suppress
    {
      list.actionsEnabledCls := false;
      list.disableSelection := true;
      list.mode := Single;
      fired := !suppress;
      if fired {
        // 'actionsdisabled' reaches the bound button's listener
        var _ := ToggleActionButton(true);
      }
    }

    /** The delayed call firing. */
    method RunDeferred(d: Deferred) returns (fired: bool)
      modifies this, list, buttons, list.items
      ensures Snapshot() == Run(old(Snapshot()), d)
    {
      match d
      case EnableActions(sup) => fired := DoEnableActions(sup);
      case DisableActions(sup) => fired := DoDisableActions(sup);
    }

    /** `onItemSelect`, run on every select and deselect of the list. */
    method OnItemSelect()
      modifies buttons
      ensures Snapshot() == ItemSelected(old(Snapshot()), maxButtonDisplayCount)
    {
      if enabled {
        UpdateActionButtonsText(|list.selection|);
      }
    }

    /** `applyActionToggleButton`, once the selector has or has not found a button. */
    method BindToggleButton(found: bool, enableText: Option<seq<char>>, disableText: Option<seq<char>>)
      modifies this
      ensures Snapshot() == ToggleBound(old(Snapshot()), found, enableText, disableText)
    {
      if found {
        toggle := Some(Bound(enableText, disableText));
      }
    }
  }
}

=== FILE: rows.dfy ===
/** A rendered list row, as far as the plugin's row hook sees it: whether the
    row carries the list's selected class, whether a selection indicator button
    has been injected into it, and whether that indicator is marked selected. */
module Rows {

  datatype Row = Row(selectedCls: bool, hasIndicator: bool, indicatorSelected: bool)

  /** The row after the plugin's `doUpdateListItem` hook ran on it. */
  function Injected(row: Row, enabled: bool): (r: Row)
    ensures r.selectedCls == row.selectedCls
    ensures r.hasIndicator <==> row.hasIndicator || enabled
    ensures !enabled || row.hasIndicator ==> r == row
    ensures enabled && !row.hasIndicator ==> (r.indicatorSelected <==> row.selectedCls)
  {
    if enabled && !row.hasIndicator then Row(row.selectedCls, true, row.selectedCls)
    else row
  }

  /** Rendering a row again never injects a second indicator: the hook only
      acts on the first render in action mode. */
  lemma InjectedIdempotent(row: Row, first: bool, second: bool)
    ensures Injected(Injected(row, first), second)
         == if first then Injected(row, first) else Injected(row, second)
  {
  }
}

=== FILE: toggle.dfy ===
/** The button that switches action mode on and off, once it has been bound.
    Its label is a two-state machine between the enable text and the disable
    text. */
module Toggle {

  datatype Option<T> = None | Some(value: T)

  /** A bound toggle button: its current label and the two configured labels. */
  datatype ToggleButton = ToggleButton(text: seq<char>, enableText: seq<char>, disableText: seq<char>)

  const DefaultEnableText: seq<char> := "select"
  const DefaultDisableText: seq<char> := "cancel"

  /** Binding a found button: the configured labels are merged over the
      defaults, and the button is given the enable text. */
  function Bound(enableText: Option<seq<char>>, disableText: Option<seq<char>>): (b: ToggleButton)
    ensures b.text == b.enableText
    ensures enableText.Some? ==> b.enableText == enableText.value
    ensures disableText.Some? ==> b.disableText == disableText.value
    ensures enableText.None? ==> b.enableText == "select"
    ensures disableText.None? ==> b.disableText == "cancel"
  {
    var e := if enableText.Some? then enableText.value else DefaultEnableText;
    var d := if disableText.Some? then disableText.value else DefaultDisableText;
    ToggleButton(e, e, d)
  }

  /** A tap asks for action mode exactly when the label reads the enable text. */
  predicate TapEnables(b: ToggleButton) { b.text == b.enableText }

  /** A mode-change event from the list swaps the label: the enable text becomes
      the disable text, and any other label becomes the enable text. */
  function Swapped(b: ToggleButton): (r: ToggleButton)
    ensures r.enableText == b.enableText && r.disableText == b.disableText
    ensures r.text == b.enableText || r.text == b.disableText
    ensures TapEnables(b) ==> r.text == b.disableText
    ensures !TapEnables(b) ==> TapEnables(r)
  {
    if b.text == b.enableText then b.(text := b.disableText) else b.(text := b.enableText)
  }

  /** With two distinct labels and the label on one of them, two swaps restore
      the button, and a swap flips what the next tap asks for. */
  lemma SwapTwice(b: ToggleButton)
    requires b.enableText != b.disableText
    requires b.text == b.enableText || b.text == b.disableText
    ensures Swapped(Swapped(b)) == b
    ensures TapEnables(Swapped(b)) <==> !TapEnables(b)
  {
  }
}
